=== FILE: README.md ===
# GenAI Roadmap page script — a verified model

The roadmap site's `script.js` wires a handful of DOM event handlers. Behind
them sit a few small pure rules, modelled here as immutable records and pure
step functions:

- **Scroll coordinator** (`scroll.dfy`, module `ScrollCoordinator`).
  `updateActiveLink` is a left fold over the `section[id], article[id]`
  elements that picks the last section whose band `[top, top + height)`
  holds `scrollY + 100`. It then maps over the nav links: each link is
  cleared, then marked when its `href` is `'#' + current`. The back-to-top
  button is shown strictly past `scrollY = 500`.
- **Reveal scheduler** (`reveal.dfy`, module `RevealScheduler`). Every
  animated element gets `reveal-on-scroll` and an optional stagger delay.
  The delay is `(indexInParent % 5) * 100` ms. It is set only when positive,
  and only under a `bento-grid`, a `UL` or a `toc-grid`. Each element is
  observed; the observer callback adds `is-visible` to an intersecting
  element and unobserves it.
- **Sidebar controller** (`sidebar.dfy`, module `SidebarController`). The
  `active` flag on the sidebar and the `button-hidden` flag on its toggle.
  The `hoverTimeout` variable, the timers still pending, a timer-id counter,
  and the number of close handlers registered on each nav link. Events:
  mouseenter, mouseleave, timer fire and click. A click is dispatched as it
  bubbles: nav-link listeners, then the toggle's listener (which stops
  propagation), or else the document's outside-click listener.
- **Theme controller** (`theme.dfy`, module `ThemeController`). `setTheme`,
  which always writes storage; startup resolution from the stored value and
  the "prefers light" signal; and the toggle button.

`wrappers.dfy` holds the `Option` type standing for `null`/`undefined`.

Browser capabilities are inputs. Layout is a list of `Section(id, top,
height)` records in whole pixels. The observer delivers lists of
`Entry(target, isIntersecting)`. Storage is an optional string in the theme
record. Timers are ids from a counter that fire only through an explicit
`TimerFire(id)` event.

Some behaviour of the code is easy to misread; the model keeps it as written:

- At startup `updateActiveLink()` runs once, but the back-to-top listener does
  not. A page restored mid-scroll shows no button until the first scroll event
  (`RestoredOffsetNeedsAScroll`).
- The nav-link close handler is registered inside another click handler
  (script.js:62-71). The first nav-link click therefore only registers
  handlers. Closing happens from the second nav-link click on
  (`NavClickClosesFromSecondClickOn`). The count of registered handlers grows
  by one per click (`HandlersCountNavClicks`).
- `mouseleave` overwrites `hoverTimeout` without clearing the earlier timer.
  Two leaves in a row leave a stale timer that a later `mouseenter` does not
  cancel, and that timer closes the sidebar (`OverwrittenTimerStillCloses`).
  Several close timers can therefore be pending at once.
- The hover handlers make no distinction for touch devices.
- A stored theme other than `'light'`, such as `'Light'`, selects dark and is
  rewritten to `'dark'`. An empty stored string counts as absent.
- With nothing stored and no light preference, nothing is written. The page
  keeps whatever `data-theme` its markup has.

## Model

| member | source | states |
|---|---|---|
| ScrollCoordinator.SelectCurrent | script.js:82-92 | the fold returns the id of the last section holding the position, and the start value when no section holds it |
| ScrollCoordinator.UpdateActiveLink | script.js:81-100 | the handler as a function: hrefs kept, and a link is active iff it points at the last section holding `scrollY + 100` (`''` when none) |
| ScrollCoordinator.LastHolderExists | script.js:85-92 | some section holds the position exactly when a last holder exists |
| ScrollCoordinator.ActiveSectionIsLastHolder | script.js:81-92 | the active section is `''` with no holder, otherwise the id of the last holder in document order |
| ScrollCoordinator.MarkLinks | script.js:94-99 | same links and hrefs; a link is active iff its href is `'#' + current` |
| ScrollCoordinator.UpdateActiveLinkLoops | script.js:81-100 | the two loops compute the last holder's id (or `''`) and mark exactly the links whose href is `'#'` plus it; they agree with the fold |
| ScrollCoordinator.ContainingSectionWins | script.js:83-99 | for disjoint sections, a position inside section k makes k active and marks exactly the links pointing at k |
| ScrollCoordinator.NoHolderMarksBareHash | script.js:82-99 | with no section under the position only links with href `'#'` are marked |
| ScrollCoordinator.DuplicatesMarkedAlike | script.js:94-99 | two links with the same href get the same mark, so duplicates are all active |
| ScrollCoordinator.MarkingForgetsPreviousState | script.js:94-99 | links are cleared first: the result ignores earlier marks, and marking twice equals marking once |
| ScrollCoordinator.AtMostOneActive | script.js:94-99 | if no two links share an href, at most one link is active |
| ScrollCoordinator.BackToTopStyle | script.js:381-389 | the button is visible iff scrollY > 500, and opacity 1 goes with visibility visible |
| ScrollCoordinator.BackToTopThresholdEdge | script.js:382-388 | hidden at exactly 500, shown at 501, and shown for every larger offset once shown |
| ScrollCoordinator.Startup | script.js:102-103 | the eager startup call keeps every href and marks exactly the links pointing at the current active section, while the button keeps its hidden creation style |
| ScrollCoordinator.OnScroll | script.js:381-389 | together with the listener registered at script.js:102, a scroll event re-marks every link (hrefs kept, active iff it points at the active section for the new offset) and sets the button style (opacity and visibility) by the 500 px threshold |
| ScrollCoordinator.ScrollIsMemoryless | script.js:81-100 | nothing is remembered across ticks: equal hrefs give equal views after a scroll to the same offset |
| ScrollCoordinator.RestoredOffsetNeedsAScroll | script.js:370-389 | a page loaded at offset 600 shows the button only after a scroll event |
| RevealScheduler.JsRem | script.js:245 | JavaScript `%`: equals Dafny's `%` for non-negative dividends and is never positive for negative ones |
| RevealScheduler.IndexOf | script.js:244 | `indexOf` gives the first position holding the element, and -1 exactly when absent |
| RevealScheduler.StaggerDelay | script.js:242-247 | a delay is set iff the parent is a bento-grid, UL or toc-grid, the element is a child of it and its index is not a multiple of 5; the delay is `(index % 5) * 100`, one of 100–400 |
| RevealScheduler.DelayFollowsChildPosition | script.js:244-245 | the child at position i among all element children of a staggering parent waits `(i % 5) * 100` ms |
| RevealScheduler.DelayWithinCycle | script.js:245 | every child's delay is one of 0, 100, 200, 300, 400 |
| RevealScheduler.StaggerCycles | script.js:242-246 | a staggering parent with five or more children uses exactly the delays {0,100,200,300,400} |
| RevealScheduler.TwelveChildGridDelays | script.js:242-246 | a twelve-child bento-grid cycles through exactly the five delays |
| RevealScheduler.Arm | script.js:237-250 | every element gets `reveal-on-scroll`, its stagger delay, and is observed |
| RevealScheduler.ArmedArePending | script.js:237-250 | freshly armed elements are observed exactly while not revealed |
| RevealScheduler.OnEntry | script.js:215-219 | one entry reveals and unobserves its target iff observed and intersecting; nothing else changes |
| RevealScheduler.GuardIsHarmless | script.js:216-218 | while pending elements are exactly the observed ones, the modelled step equals the script's unguarded add-and-unobserve |
| RevealScheduler.OnBatch | script.js:214-221 | a callback keeps the number of watched elements |
| RevealScheduler.BatchEffect | script.js:215-219 | after a callback an element is revealed iff it was, or it was observed and reported intersecting; it is observed iff it was and was not reported; delays are kept, classes only grow |
| RevealScheduler.OneShot | script.js:215-219 | revealed elements stay revealed and unobserved, and "pending iff observed" survives every callback |
| RevealScheduler.RevealedIffReported | script.js:214-221 | from the armed state a callback reveals exactly the elements it reports intersecting |
| RevealScheduler.BatchesCompose | script.js:214-221 | two callbacks in a row equal one callback over both entry lists |
| RevealScheduler.FixedClasses | script.js:215-219 | a callback adds `is-visible` to an element iff it was observed and reported, and no other class |
| RevealScheduler.Idempotent | script.js:215-219 | delivering the same entries twice has the effect of delivering them once |
| SidebarController.Close | script.js:54-55 | closing clears both flags; restoring the two flags gives back the original state, so timers and handlers are untouched |
| SidebarController.ToggleSidebar | script.js:13-18 | both flags flip, coupling is kept either way, nothing else changes |
| SidebarController.OpenSidebar | script.js:26-30 | opens, and cancels only the timer whose id is stored in `hoverTimeout`; every other pending timer keeps its delay |
| SidebarController.CloseSidebarLater | script.js:32-37 | schedules a fresh 300 ms close, stores its id, leaves earlier timers pending and the flags unchanged |
| SidebarController.FireTimer | script.js:33-36 | a pending timer closes the sidebar once; a cleared or spent id changes nothing |
| SidebarController.OutsideClick | script.js:49-58 | the state changes iff the sidebar is open and the target is in neither the sidebar nor the toggle, and then it closes |
| SidebarController.NavLinkClick | script.js:61-72 | a nav-link click adds one close handler; it closes iff handlers were registered before it |
| SidebarController.OnClick | script.js:13-72 | a click on the toggle toggles; a click elsewhere that is not on a nav link is the outside-click rule; every nav-link click registers one more close handler and is then handled as it bubbles: by the toggle rule when inside the toggle, otherwise by the outside-click rule applied after the nav-link rule |
| SidebarController.Step | script.js:20-72 | every event keeps timer ids below the counter |
| SidebarController.RunKeepsCoupled | script.js:13-72 | along any run, `active` and `button-hidden` stay equal if they start equal |
| SidebarController.HandlersCountNavClicks | script.js:61-72 | after any run, the handler count grows by the number of nav-link clicks |
| SidebarController.NavClickClosesFromSecondClickOn | script.js:62-71 | after opening by the toggle, the first nav-link click leaves the sidebar open and the second closes it |
| SidebarController.GracePeriodKeepsOpen | script.js:26-45 | leave then re-enter before the timer fires: the fired timer finds nothing and the sidebar stays open |
| SidebarController.OverwrittenTimerStillCloses | script.js:26-37 | after two leaves and an enter, the first timer is still pending and closes the sidebar |
| SidebarController.EnterCancelsLastTimer | script.js:26-37 | a mouseenter right after a mouseleave cancels exactly the timer that leave scheduled |
| ThemeController.SetTheme | script.js:296-308 | `'light'` selects light, any other string dark; attribute, storage, icon and label all present the chosen theme |
| ThemeController.Startup | script.js:310-318 | a non-empty stored value decides (light iff `'light'`) and the page presents it; else a light preference selects, presents (icon and label) and stores light; else nothing changes; the icon element is kept either way |
| ThemeController.Toggle | script.js:320-326 | the effective theme flips, the page presents it, the new one is stored, and the icon element is kept |
| ThemeController.ToggleTwiceRestores | script.js:320-325 | on a consistently presented page two toggles restore the page and storage |
| ThemeController.StoredChoiceSurvivesReload | script.js:310-318 | once a theme is set, the next load shows it under either system preference |
| ThemeController.UnknownSavedValueMeansDark | script.js:314-315 | a stored `'Light'` selects dark and is rewritten as `'dark'` |
| ThemeController.FirstVisitToggleReload | script.js:310-325 | nothing stored and prefers light: light is shown and stored; a toggle stores dark; the next load shows dark |

## Left out

- Scroll progress bar (script.js:143-148): floating-point division. The width is not clamped to 0–100, and a page no taller than the viewport divides by zero.
- Layer-stack delays (script.js:272): float seconds `(8 - index) * 0.1`, negative past index 8.
- Clipboard copy (script.js:186-201): asynchronous browser API with console logging on failure; only fixed feedback text otherwise.
- Smooth scrolling and `scrollTo` (script.js:109-123, 339-341, 377-379), inline CSS text and hover transforms (script.js:256-264, 391-397): presentation plumbing with no rule to state.
- The search placeholder, keyboard stubs (script.js:280-283, 332-347) and the console banner: no behaviour.
- Observer geometry (200 px bottom margin, threshold 0): the browser decides when an entry is intersecting; the model takes its entries as input. No fallback exists when the observer is unavailable, and none is modelled.
- Fractional scroll offsets and layout metrics: `scrollY`, `offsetTop` and `clientHeight` are whole pixels here.
- A missing `#sidebar`, `#sidebarToggle` or `#themeToggle`: the model assumes they exist. Without `#sidebar` the script throws: at load time at script.js:44 if the toggle exists, which aborts everything wired after it; otherwise on every click, at script.js:51 (and at script.js:67 in nav-link close handlers). Without `#themeToggle`, `setTheme` throws at script.js:300 or script.js:305 whenever startup calls it, which aborts the rest of the load. It skips the hover and toggle wiring without the sidebar toggle.
- The real timer clock: a close fires when the model receives `TimerFire`, not after 300 ms of simulated time. The delay is recorded with each pending timer.
- SidebarController.Step: its contract states only that timer ids stay issued. What each event does is stated on the per-event functions it dispatches to.

=== FILE: reveal.dfy ===
/** The reveal-on-scroll scheduler: every animated element is armed once
    (class `reveal-on-scroll`, an optional stagger delay, observed), and the
    observer callback reveals an intersecting element (class `is-visible`)
    and stops observing it.

    The observer's geometry (200 px bottom margin, threshold 0) is left to the
    browser: the model receives, per callback, the list of entries it
    delivers, each naming an armed element by its position in the list of
    elements to animate. */
module RevealScheduler {
  import opened Wrappers

  /** An element's parent, as far as the stagger rule looks at it: its class
      list, its tag name, and its element children (by element id). */
  datatype ParentInfo = ParentInfo(classes: set<string>, tagName: string, children: seq<nat>)

  /** An element matched by one of the animated selectors. */
  datatype Element = Element(id: nat, classes: set<string>, parent: Option<ParentInfo>)

  /** An armed element's observable state. `observed` is membership in the
      observer's target set. */
  datatype Watched = Watched(classes: set<string>, transitionDelayMs: Option<nat>, observed: bool)

  /** One `IntersectionObserverEntry` of a callback batch. */
  datatype Entry = Entry(target: nat, isIntersecting: bool)

  const ArmedClass: string := "reveal-on-scroll"
  const RevealedClass: string := "is-visible"

  /** Items per stagger cycle and delay step, in milliseconds. */
  const StaggerCycle: int := 5
  const StaggerStepMs: int := 100

  predicate Revealed(w: Watched) {
    RevealedClass in w.classes
  }

  /** JavaScript's `%`: the remainder takes the sign of the dividend. */
  function JsRem(a: int, b: int): (r: int)
    requires b > 0
    ensures a >= 0 ==> r == a % b
    ensures a < 0 ==> r <= 0
  {
    if a >= 0 then a % b else -((-a) % b)
  }

  /** `Array.prototype.indexOf`: the first position of `x`, or -1. */
  function IndexOf(xs: seq<nat>, x: nat): (r: int)
    ensures -1 <= r < |xs|
    ensures r >= 0 ==> xs[r] == x && forall j :: 0 <= j < r ==> xs[j] != x
    ensures r == -1 <==> x !in xs
  {
    if |xs| == 0 then -1
    else if xs[0] == x then 0
    else
      var r := IndexOf(xs[1..], x);
      if r == -1 then -1 else r + 1
  }

  /** Parents whose children are staggered: a `bento-grid`, a `UL`, a `toc-grid`. */
  predicate StaggersChildren(p: ParentInfo) {
    "bento-grid" in p.classes || p.tagName == "UL" || "toc-grid" in p.classes
  }

  /** The `transitionDelay` the arming loop sets, in ms; None when it sets none. */
  function StaggerDelay(el: Element): (d: Option<nat>)
    ensures d.Some? <==>
      el.parent.Some? && StaggersChildren(el.parent.value) &&
      IndexOf(el.parent.value.children, el.id) % StaggerCycle != 0 &&
      el.id in el.parent.value.children
    ensures d.Some? ==> d.value in {100, 200, 300, 400}
    ensures d.Some? ==> d.value == (IndexOf(el.parent.value.children, el.id) % StaggerCycle) * StaggerStepMs
  {
    match el.parent
    case None => None
    case Some(p) =>
      if StaggersChildren(p) then
        var delay := JsRem(IndexOf(p.children, el.id), StaggerCycle) * StaggerStepMs;
        if delay > 0 then Some(delay) else None
      else None
  }

  /** The delay an element actually waits: an unset delay is 0 ms. */
  function EffectiveDelay(el: Element): nat {
    StaggerDelay(el).GetOr(0)
  }

  /** The child at position `i` of a staggering parent waits `(i % 5) * 100` ms:
      the index counts every element child, animated or not. */
  lemma DelayFollowsChildPosition(p: ParentInfo, i: nat, classes: set<string>)
    requires StaggersChildren(p)
    requires i < |p.children|
    requires forall a, b :: 0 <= a < b < |p.children| ==> p.children[a] != p.children[b]
    ensures EffectiveDelay(Element(p.children[i], classes, Some(p))) == (i % 5) * 100
  {
    var r := IndexOf(p.children, p.children[i]);
    assert p.children[i] in p.children;
    assert r >= 0 && p.children[r] == p.children[i];
    assert r == i;
  }

  /** Under a staggering parent with at least five children the delays take
      exactly the five values 0, 100, 200, 300 and 400 ms, however many
      children there are. */
  lemma StaggerCycles(p: ParentInfo)
    requires StaggersChildren(p)
    requires |p.children| >= 5
    requires forall a, b :: 0 <= a < b < |p.children| ==> p.children[a] != p.children[b]
    ensures (set i | 0 <= i < |p.children| :: EffectiveDelay(Element(p.children[i], {}, Some(p)))) == {0, 100, 200, 300, 400}
  {
    var ds := set i | 0 <= i < |p.children| :: EffectiveDelay(Element(p.children[i], {}, Some(p)));
    forall i | 0 <= i < |p.children|
      ensures EffectiveDelay(Element(p.children[i], {}, Some(p))) in {0, 100, 200, 300, 400}
    {
      DelayWithinCycle(p, i);
    }
    forall k | 0 <= k < 5
      ensures k * 100 in ds
    {
      DelayFollowsChildPosition(p, k, {});
    }
    assert {0, 100, 200, 300, 400} <= ds by {
      assert 0 * 100 in ds && 1 * 100 in ds && 2 * 100 in ds && 3 * 100 in ds && 4 * 100 in ds;
    }
  }

  /** Every child's delay is one of the five cycle values. */
  lemma DelayWithinCycle(p: ParentInfo, i: nat)
    requires StaggersChildren(p)
    requires i < |p.children|
    requires forall a, b :: 0 <= a < b < |p.children| ==> p.children[a] != p.children[b]
    ensures EffectiveDelay(Element(p.children[i], {}, Some(p))) in {0, 100, 200, 300, 400}
  {
    DelayFollowsChildPosition(p, i, {});
    var q := i % 5;
    assert q == 0 || q == 1 || q == 2 || q == 3 || q == 4;
  }

  /** A parent with `n` element children, ids `0 .. n-1`. */
  function Grid(n: nat, classes: set<string>, tagName: string): (p: ParentInfo)
    ensures |p.children| == n
    ensures forall i :: 0 <= i < n ==> p.children[i] == i
  {
    ParentInfo(classes, tagName, seq(n, i => i))
  }

  /** A `bento-grid` of twelve children cycles through the five delays. */
  lemma TwelveChildGridDelays()
    ensures var p := Grid(12, {"bento-grid"}, "DIV");
      (set i | 0 <= i < 12 :: EffectiveDelay(Element(p.children[i], {}, Some(p)))) == {0, 100, 200, 300, 400}
  {
    StaggerCycles(Grid(12, {"bento-grid"}, "DIV"));
  }

  /** The arming loop: mark, stagger and observe every element. */
  function Arm(els: seq<Element>): (ws: seq<Watched>)
    ensures |ws| == |els|
    ensures forall i :: 0 <= i < |ws| ==>
      ws[i].observed && ws[i].classes == els[i].classes + {ArmedClass} &&
      ws[i].transitionDelayMs == StaggerDelay(els[i])
  {
    seq(|els|, i requires 0 <= i < |els| => Watched(els[i].classes + {ArmedClass}, StaggerDelay(els[i]), true))
  }

  /** Every element is pending exactly while it is observed. */
  ghost predicate PendingIffObserved(ws: seq<Watched>) {
    forall i :: 0 <= i < |ws| ==> (ws[i].observed <==> !Revealed(ws[i]))
  }

  /** Freshly armed elements are all pending, provided none was already revealed. */
  lemma ArmedArePending(els: seq<Element>)
    requires forall i :: 0 <= i < |els| ==> RevealedClass !in els[i].classes
    ensures PendingIffObserved(Arm(els))
  {
  }

  /** The callback body for one entry: an intersecting entry reveals its
      target and unobserves it. The `observed` test is not in the script;
      `GuardIsHarmless` shows it changes nothing while pending elements are
      exactly the observed ones. An entry naming no armed element is ignored. */
  function OnEntry(ws: seq<Watched>, e: Entry): (ws': seq<Watched>)
    ensures |ws'| == |ws|
    ensures forall i :: 0 <= i < |ws| && i != e.target ==> ws'[i] == ws[i]
    ensures e.target < |ws| ==>
      var w, w' := ws[e.target], ws'[e.target];
      && w'.transitionDelayMs == w.transitionDelayMs
      && (Revealed(w') <==> Revealed(w) || (w.observed && e.isIntersecting))
      && (w'.observed <==> w.observed && !e.isIntersecting)
      && w'.classes == (if w.observed && e.isIntersecting then w.classes + {RevealedClass} else w.classes)
  {
    if e.target < |ws| && ws[e.target].observed && e.isIntersecting then
      ws[e.target := ws[e.target].(classes := ws[e.target].classes + {RevealedClass}, observed := false)]
    else ws
  }

  /** Under the pending-iff-observed invariant, the guarded step equals the
      script's unguarded one: adding `is-visible` and unobserving an element
      that is already revealed and unobserved changes nothing. */
  lemma GuardIsHarmless(ws: seq<Watched>, e: Entry)
    requires PendingIffObserved(ws)
    ensures OnEntry(ws, e) ==
      if e.target < |ws| && e.isIntersecting then
        ws[e.target := ws[e.target].(classes := ws[e.target].classes + {RevealedClass}, observed := false)]
      else ws
  {
    if e.target < |ws| && e.isIntersecting && !ws[e.target].observed {
      var w := ws[e.target];
      assert w.classes + {RevealedClass} == w.classes;
      assert w.(classes := w.classes + {RevealedClass}, observed := false) == w;
    }
  }

  /** One observer callback: `entries.forEach`. */
  function OnBatch(ws: seq<Watched>, entries: seq<Entry>): (ws': seq<Watched>)
    ensures |ws'| == |ws|
    decreases |entries|
  {
    if |entries| == 0 then ws else OnBatch(OnEntry(ws, entries[0]), entries[1..])
  }

  /** Some entry of the batch reports element `i` intersecting. */
  predicate Hit(entries: seq<Entry>, i: nat) {
    exists j :: 0 <= j < |entries| && entries[j].target == i && entries[j].isIntersecting
  }

  /** After a batch, an element is revealed iff it was, or it was observed and
      some entry reported it intersecting; it is observed iff it was and no
      entry did. Delays never change and classes are only added. */
  lemma {:induction false} BatchEffect(ws: seq<Watched>, entries: seq<Entry>, i: nat)
    requires i < |ws|
    ensures |OnBatch(ws, entries)| == |ws|
    ensures var w, w' := ws[i], OnBatch(ws, entries)[i];
      && (Revealed(w') <==> Revealed(w) || (w.observed && Hit(entries, i)))
      && (w'.observed <==> w.observed && !Hit(entries, i))
      && w'.transitionDelayMs == w.transitionDelayMs
      && w.classes <= w'.classes
    decreases |entries|
  {
    if |entries| > 0 {
      var ws1 := OnEntry(ws, entries[0]);
      BatchEffect(ws1, entries[1..], i);
      assert Hit(entries, i) <==> (entries[0].target == i && entries[0].isIntersecting) || Hit(entries[1..], i) by {
        if Hit(entries, i) {
          var j :| 0 <= j < |entries| && entries[j].target == i && entries[j].isIntersecting;
          if j > 0 { assert entries[1..][j - 1] == entries[j]; }
        }
        if Hit(entries[1..], i) {
          var j :| 0 <= j < |entries[1..]| && entries[1..][j].target == i && entries[1..][j].isIntersecting;
          assert entries[j + 1] == entries[1..][j];
        }
      }
    }
  }

  /** Reveal is one-shot and monotonic: a revealed element stays revealed and
      unobserved, and the pending/observed pairing survives every batch. */
  lemma OneShot(ws: seq<Watched>, entries: seq<Entry>)
    requires PendingIffObserved(ws)
    ensures |OnBatch(ws, entries)| == |ws|
    ensures PendingIffObserved(OnBatch(ws, entries))
    ensures forall i :: 0 <= i < |ws| && Revealed(ws[i]) ==>
      Revealed(OnBatch(ws, entries)[i]) && !OnBatch(ws, entries)[i].observed
  {
    forall i | 0 <= i < |ws|
      ensures var w' := OnBatch(ws, entries)[i];
        (w'.observed <==> !Revealed(w')) && (Revealed(ws[i]) ==> Revealed(w') && !w'.observed)
    {
      BatchEffect(ws, entries, i);
    }
  }

  /** From the armed state, a batch reveals exactly the elements it reports
      intersecting. */
  lemma RevealedIffReported(els: seq<Element>, entries: seq<Entry>, i: nat)
    requires forall k :: 0 <= k < |els| ==> RevealedClass !in els[k].classes
    requires i < |els|
    ensures |OnBatch(Arm(els), entries)| == |els|
    ensures Revealed(OnBatch(Arm(els), entries)[i]) <==> Hit(entries, i)
  {
    BatchEffect(Arm(els), entries, i);
  }

  /** Callbacks run back to back behave like one callback over both batches. */
  lemma {:induction false} BatchesCompose(ws: seq<Watched>, a: seq<Entry>, b: seq<Entry>)
    ensures OnBatch(OnBatch(ws, a), b) == OnBatch(ws, a + b)
    decreases |a|
  {
    if |a| > 0 {
      assert (a + b)[0] == a[0];
      assert (a + b)[1..] == a[1..] + b;
      BatchesCompose(OnEntry(ws, a[0]), a[1..], b);
    } else {
      assert a + b == b;
    }
  }

  /** Delivering the same entries a second time changes nothing: each element
      is revealed and unobserved at most once. */
  lemma Idempotent(ws: seq<Watched>, entries: seq<Entry>)
    ensures OnBatch(OnBatch(ws, entries), entries) == OnBatch(ws, entries)
  {
    var once := OnBatch(ws, entries);
    var twice := OnBatch(once, entries);
    forall i | 0 <= i < |once|
      ensures twice[i] == once[i]
    {
      BatchEffect(ws, entries, i);
      BatchEffect(once, entries, i);
      FixedClasses(once, entries, i);
    }
  }

  /** An element that a batch leaves unrevealed or unobserved keeps its
      classes: only a reveal adds one, and it adds `is-visible`. */
  lemma {:induction false} FixedClasses(ws: seq<Watched>, entries: seq<Entry>, i: nat)
    requires i < |ws|
    ensures |OnBatch(ws, entries)| == |ws|
    ensures var w, w' := ws[i], OnBatch(ws, entries)[i];
      w'.classes == (if w.observed && Hit(entries, i) then w.classes + {RevealedClass} else w.classes)
    decreases |entries|
  {
    BatchEffect(ws, entries, i);
    if |entries| > 0 {
      var ws1 := OnEntry(ws, entries[0]);
      FixedClasses(ws1, entries[1..], i);
      BatchEffect(ws1, entries[1..], i);
      assert Hit(entries, i) <==> (entries[0].target == i && entries[0].isIntersecting) || Hit(entries[1..], i) by {
        if Hit(entries, i) {
          var j :| 0 <= j < |entries| && entries[j].target == i && entries[j].isIntersecting;
          if j > 0 { assert entries[1..][j - 1] == entries[j]; }
        }
        if Hit(entries[1..], i) {
          var j :| 0 <= j < |entries[1..]| && entries[1..][j].target == i && entries[1..][j].isIntersecting;
          assert entries[j + 1] == entries[1..][j];
        }
      }
    }
  }
}

=== FILE: scroll.dfy ===
/** The scroll-reactive part of the page script: choosing the navigation
    section that contains the reading position, marking the navigation links
    that point at it, and showing the back-to-top button past a threshold.

    Layout metrics (`offsetTop`, `clientHeight`, `scrollY`) are whole pixels
    here; the DOM, the scroll event and styles are abstracted into values. */
module ScrollCoordinator {
  import opened Wrappers

  /** A `section[id]` or `article[id]` element, in document order. */
  datatype Section = Section(id: string, top: int, height: nat)

  /** A `.nav-link` or `.nav-sublist a` element: its `href` attribute (None when
      absent) and whether it carries the `active` class. */
  datatype NavLink = NavLink(href: Option<string>, active: bool)

  /** The reading position is 100 px below the top of the viewport. */
  const ReadingOffset: int := 100

  /** Past this scroll offset (strictly) the back-to-top button is shown. */
  const BackToTopThreshold: int := 500

  function ReadingPosition(scrollY: int): int {
    scrollY + ReadingOffset
  }

  /** The half-open band `[top, top + height)` of a section holds `pos`. */
  predicate Holds(s: Section, pos: int) {
    s.top <= pos < s.top + s.height
  }

  /** Index `k` is the last section in document order that holds `pos`. */
  ghost predicate IsLastHolder(sections: seq<Section>, pos: int, k: int) {
    && 0 <= k < |sections|
    && Holds(sections[k], pos)
    && forall j :: k < j < |sections| ==> !Holds(sections[j], pos)
  }

  ghost predicate NoHolder(sections: seq<Section>, pos: int) {
    forall j :: 0 <= j < |sections| ==> !Holds(sections[j], pos)
  }

  /** No reading position lies inside two different sections. */
  ghost predicate Disjoint(sections: seq<Section>) {
    forall i, j :: 0 <= i < j < |sections| ==>
      sections[i].top + sections[i].height <= sections[j].top ||
      sections[j].top + sections[j].height <= sections[i].top
  }

  /** The `sections.forEach` pass of `updateActiveLink`: starting from the
      value `current`, every section that holds `pos` overwrites it with its
      id, so the last holder wins; with no holder `current` is kept. */
  function SelectCurrent(sections: seq<Section>, pos: int, current: string): (r: string)
    ensures NoHolder(sections, pos) ==> r == current
    ensures forall k :: IsLastHolder(sections, pos, k) ==> r == sections[k].id
    decreases |sections|
  {
    if |sections| == 0 then current
    else
      var next := if Holds(sections[0], pos) then sections[0].id else current;
      assert forall k :: 0 < k && IsLastHolder(sections, pos, k) ==> IsLastHolder(sections[1..], pos, k - 1);
      SelectCurrent(sections[1..], pos, next)
  }

  /** The id of the section holding the reading position, `""` when none does. */
  function ActiveSection(sections: seq<Section>, scrollY: int): string {
    SelectCurrent(sections, ReadingPosition(scrollY), "")
  }

  /** The `allNavLinks.forEach` pass: every link loses `active`, then gains it
      back exactly when its `href` is `'#' + current`. */
  function MarkLinks(links: seq<NavLink>, current: string): (r: seq<NavLink>)
    ensures |r| == |links|
    ensures forall i :: 0 <= i < |r| ==> r[i].href == links[i].href
    ensures forall i :: 0 <= i < |r| ==> (r[i].active <==> links[i].href == Some("#" + current))
  {
    seq(|links|, i requires 0 <= i < |links| => NavLink(links[i].href, links[i].href == Some("#" + current)))
  }

  /** `updateActiveLink` as a pure function of layout and scroll offset. */
  function UpdateActiveLink(sections: seq<Section>, links: seq<NavLink>, scrollY: int): (r: seq<NavLink>)
    ensures |r| == |links|
    ensures forall i :: 0 <= i < |r| ==> r[i].href == links[i].href
    ensures NoHolder(sections, ReadingPosition(scrollY)) ==>
      forall i :: 0 <= i < |r| ==> (r[i].active <==> links[i].href == Some("#"))
    ensures forall k, i :: IsLastHolder(sections, ReadingPosition(scrollY), k) && 0 <= i < |r| ==>
      (r[i].active <==> links[i].href == Some("#" + sections[k].id))
  {
    assert "#" + "" == "#";
    MarkLinks(links, ActiveSection(sections, scrollY))
  }

  /** The same handler as the script writes it: one loop over the sections,
      then one loop over the links. */
  method UpdateActiveLinkLoops(sections: seq<Section>, links: seq<NavLink>, scrollY: int)
    returns (current: string, marked: seq<NavLink>)
    ensures NoHolder(sections, ReadingPosition(scrollY)) ==> current == ""
    ensures forall k :: IsLastHolder(sections, ReadingPosition(scrollY), k) ==> current == sections[k].id
    ensures |marked| == |links|
    ensures forall i :: 0 <= i < |marked| ==>
      marked[i].href == links[i].href && (marked[i].active <==> links[i].href == Some("#" + current))
    ensures current == ActiveSection(sections, scrollY)
    ensures marked == UpdateActiveLink(sections, links, scrollY)
  {
    current := "";
    var pos := ReadingPosition(scrollY);
    var n := 0;
    while n < |sections|
      invariant 0 <= n <= |sections|
      invariant NoHolder(sections[..n], pos) ==> current == ""
      invariant forall k :: IsLastHolder(sections[..n], pos, k) ==> current == sections[k].id
    {
      var s := sections[n];
      if pos >= s.top && pos < s.top + s.height {
        current := s.id;
      }
      assert forall k :: IsLastHolder(sections[..n + 1], pos, k) && k < n ==> IsLastHolder(sections[..n], pos, k);
      assert NoHolder(sections[..n + 1], pos) ==> NoHolder(sections[..n], pos);
      n := n + 1;
    }
    assert sections[..n] == sections;
    LastHolderExists(sections, pos);
    marked := [];
    var m := 0;
    while m < |links|
      invariant 0 <= m <= |links|
      invariant |marked| == m
      invariant forall i :: 0 <= i < m ==>
        marked[i].href == links[i].href && (marked[i].active <==> links[i].href == Some("#" + current))
    {
      var link := links[m].(active := false);
      if link.href == Some("#" + current) {
        link := link.(active := true);
      }
      marked := marked + [link];
      m := m + 1;
    }
  }

  /** Some section holds `pos` exactly when a last such section exists. */
  lemma {:induction false} LastHolderExists(sections: seq<Section>, pos: int)
    ensures !NoHolder(sections, pos) <==> exists k :: IsLastHolder(sections, pos, k)
    decreases |sections|
  {
    if |sections| > 0 {
      var n := |sections| - 1;
      var front := sections[..n];
      if Holds(sections[n], pos) {
        assert IsLastHolder(sections, pos, n);
      } else {
        LastHolderExists(front, pos);
        if !NoHolder(sections, pos) {
          var j :| 0 <= j < |sections| && Holds(sections[j], pos);
          assert front[j] == sections[j];
          var k :| IsLastHolder(front, pos, k);
          assert IsLastHolder(sections, pos, k);
        }
      }
    }
  }

  /** The chosen section is the last holder of the reading position, and the
      empty id exactly when no section holds it (or the holder's id is empty). */
  lemma ActiveSectionIsLastHolder(sections: seq<Section>, scrollY: int)
    ensures var r := ActiveSection(sections, scrollY);
      (NoHolder(sections, ReadingPosition(scrollY)) && r == "") ||
      (exists k :: IsLastHolder(sections, ReadingPosition(scrollY), k) && r == sections[k].id)
  {
    LastHolderExists(sections, ReadingPosition(scrollY));
  }

  /** For disjoint sections, a reading position inside section `k` makes `k`
      the active section, and the marked links are exactly those whose `href`
      is `'#'` followed by that section's id. */
  lemma ContainingSectionWins(sections: seq<Section>, links: seq<NavLink>, scrollY: int, k: int)
    requires Disjoint(sections)
    requires 0 <= k < |sections| && Holds(sections[k], ReadingPosition(scrollY))
    ensures ActiveSection(sections, scrollY) == sections[k].id
    ensures forall i :: 0 <= i < |links| ==>
      (UpdateActiveLink(sections, links, scrollY)[i].active <==> links[i].href == Some("#" + sections[k].id))
  {
    var pos := ReadingPosition(scrollY);
    forall j | k < j < |sections|
      ensures !Holds(sections[j], pos)
    {
      assert sections[k].top + sections[k].height <= sections[j].top ||
             sections[j].top + sections[j].height <= sections[k].top;
    }
    assert IsLastHolder(sections, pos, k);
  }

  /** With no section under the reading position, `current` stays `''`, so the
      only links marked are those whose `href` is the bare `'#'`. */
  lemma NoHolderMarksBareHash(sections: seq<Section>, links: seq<NavLink>, scrollY: int)
    requires NoHolder(sections, ReadingPosition(scrollY))
    ensures forall i :: 0 <= i < |links| ==>
      (UpdateActiveLink(sections, links, scrollY)[i].active <==> links[i].href == Some("#"))
  {
    assert "#" + "" == "#";
  }

  /** Links sharing an `href` are marked alike: duplicates are all active. */
  lemma DuplicatesMarkedAlike(links: seq<NavLink>, current: string, i: int, j: int)
    requires 0 <= i < |links| && 0 <= j < |links|
    requires links[i].href == links[j].href
    ensures MarkLinks(links, current)[i].active == MarkLinks(links, current)[j].active
  {
  }

  /** Every link is cleared before marking: the result ignores the previous
      `active` flags, so marking twice is the same as marking once. */
  lemma MarkingForgetsPreviousState(a: seq<NavLink>, b: seq<NavLink>, current: string)
    requires |a| == |b|
    requires forall i :: 0 <= i < |a| ==> a[i].href == b[i].href
    ensures MarkLinks(a, current) == MarkLinks(b, current)
    ensures MarkLinks(MarkLinks(a, current), current) == MarkLinks(a, current)
  {
  }

  /** When no two links share a present `href`, at most one link is active
      (links without an `href` are never active). */
  lemma AtMostOneActive(links: seq<NavLink>, current: string)
    requires forall i, j :: 0 <= i < j < |links| && links[i].href.Some? ==> links[i].href != links[j].href
    ensures forall i, j :: 0 <= i < j < |links| ==>
      !(MarkLinks(links, current)[i].active && MarkLinks(links, current)[j].active)
  {
  }

  /** The inline style the scroll handler writes on the back-to-top button. */
  datatype ButtonStyle = ButtonStyle(opacity: string, visibility: string)

  /** The style given by the button's creation-time `cssText`. */
  const HiddenStyle: ButtonStyle := ButtonStyle("0", "hidden")
  const ShownStyle: ButtonStyle := ButtonStyle("1", "visible")

  /** The back-to-top scroll listener: shown strictly past the threshold. */
  function BackToTopStyle(scrollY: int): (b: ButtonStyle)
    ensures b == ShownStyle || b == HiddenStyle
    ensures b.visibility == "visible" <==> scrollY > BackToTopThreshold
    ensures b.opacity == "1" <==> b.visibility == "visible"
  {
    if scrollY > BackToTopThreshold then ShownStyle else HiddenStyle
  }

  /** Hidden at exactly 500, shown at 501, and once shown it stays shown for
      every larger offset. */
  lemma BackToTopThresholdEdge(y: int, y': int)
    ensures BackToTopStyle(500) == HiddenStyle && BackToTopStyle(501) == ShownStyle
    ensures y <= y' && BackToTopStyle(y) == ShownStyle ==> BackToTopStyle(y') == ShownStyle
  {
  }

  /** The presentation state the scroll listeners maintain. */
  datatype ScrollView = ScrollView(links: seq<NavLink>, backToTop: ButtonStyle)

  /** `DOMContentLoaded`: `updateActiveLink()` runs once eagerly, but the
      back-to-top listener does not, so the button keeps its hidden creation
      style until the first scroll event, whatever the restored offset. */
  function Startup(sections: seq<Section>, links: seq<NavLink>, scrollY: int): (v: ScrollView)
    ensures v.backToTop == HiddenStyle
    ensures |v.links| == |links|
    ensures forall i :: 0 <= i < |links| ==> v.links[i].href == links[i].href
    ensures forall i :: 0 <= i < |links| ==>
      (v.links[i].active <==> links[i].href == Some("#" + ActiveSection(sections, scrollY)))
  {
    ScrollView(UpdateActiveLink(sections, links, scrollY), HiddenStyle)
  }

  /** One `scroll` event: both listeners recompute from the offset alone. */
  function OnScroll(v: ScrollView, sections: seq<Section>, scrollY: int): (v': ScrollView)
    ensures |v'.links| == |v.links|
    ensures v'.backToTop == (if scrollY > BackToTopThreshold then ShownStyle else HiddenStyle)
    ensures forall i :: 0 <= i < |v.links| ==>
      v'.links[i].href == v.links[i].href &&
      (v'.links[i].active <==> v.links[i].href == Some("#" + ActiveSection(sections, scrollY)))
  {
    ScrollView(UpdateActiveLink(sections, v.links, scrollY), BackToTopStyle(scrollY))
  }

  /** Nothing is remembered across scroll ticks: two views with the same links
      end up identical after a scroll to the same offset. */
  lemma ScrollIsMemoryless(v1: ScrollView, v2: ScrollView, sections: seq<Section>, scrollY: int)
    requires |v1.links| == |v2.links|
    requires forall i :: 0 <= i < |v1.links| ==> v1.links[i].href == v2.links[i].href
    ensures OnScroll(v1, sections, scrollY) == OnScroll(v2, sections, scrollY)
  {
    MarkingForgetsPreviousState(v1.links, v2.links, ActiveSection(sections, scrollY));
  }

  /** A page restored at offset 600 shows no back-to-top button until the user
      scrolls, after which it does. */
  lemma RestoredOffsetNeedsAScroll(sections: seq<Section>, links: seq<NavLink>)
    ensures Startup(sections, links, 600).backToTop == HiddenStyle
    ensures OnScroll(Startup(sections, links, 600), sections, 600).backToTop == ShownStyle
  {
  }
}

=== FILE: sidebar.dfy ===
/** The sidebar controller: the `active` class on `#sidebar`, the
    `button-hidden` class on `#sidebarToggle`, the hover grace timer and the
    nav-link close handlers, driven by one pure step function per event.

    Both elements are taken to exist. Timers are abstract: `setTimeout`
    hands out ids from a counter, and a pending timer fires only through an
    explicit `TimerFire` event. */
module SidebarController {
  import opened Wrappers

  type TimerId = nat

  /** Delay of the close scheduled on `mouseleave`, in milliseconds. */
  const HoverCloseDelayMs: nat := 300

  datatype Sidebar = Sidebar(
    active: bool,                        // `active` class on the sidebar
    buttonHidden: bool,                  // `button-hidden` class on the toggle
    hoverTimeout: Option<TimerId>,       // the `hoverTimeout` variable
    pendingCloses: map<TimerId, nat>,    // scheduled closes not yet fired or cleared, with their delay
    nextTimerId: TimerId,                // the id the next `setTimeout` returns
    navCloseHandlers: nat                // close handlers registered on each nav link
  )

  /** Where a click lands, relative to the controller's elements. */
  datatype ClickTarget = ClickTarget(inSidebar: bool, inToggle: bool, isNavLink: bool)

  datatype Event =
    | MouseEnter          // on the toggle or on the sidebar: `openSidebar`
    | MouseLeave          // from the toggle or from the sidebar: `closeSidebar`
    | TimerFire(id: TimerId)
    | Click(target: ClickTarget)

  /** The page as loaded: closed, no timer, no close handler yet. */
  const Init: Sidebar := Sidebar(false, false, None, map[], 1, 0)

  /** The presentation flags agree: the toggle is hidden iff the sidebar is open. */
  predicate Coupled(s: Sidebar) {
    s.active == s.buttonHidden
  }

  /** Every id in use was handed out before `nextTimerId`. */
  predicate IdsIssued(s: Sidebar) {
    && (s.hoverTimeout.Some? ==> s.hoverTimeout.value < s.nextTimerId)
    && forall t :: t in s.pendingCloses ==> t < s.nextTimerId
  }

  /** Both classes removed; timers and handlers untouched. */
  function Close(s: Sidebar): (r: Sidebar)
    ensures !r.active && !r.buttonHidden
    ensures r.(active := s.active, buttonHidden := s.buttonHidden) == s
  {
    s.(active := false, buttonHidden := false)
  }

  /** `toggleSidebar`: each class is toggled on its own element. */
  function ToggleSidebar(s: Sidebar): (r: Sidebar)
    ensures r.active != s.active && r.buttonHidden != s.buttonHidden
    ensures Coupled(r) <==> Coupled(s)
    ensures r.(active := s.active, buttonHidden := s.buttonHidden) == s
  {
    s.(active := !s.active, buttonHidden := !s.buttonHidden)
  }

  /** `openSidebar` (mouseenter): clears the most recently stored timer only,
      then opens. */
  function OpenSidebar(s: Sidebar): (r: Sidebar)
    ensures r.active && r.buttonHidden
    ensures r.hoverTimeout == s.hoverTimeout && r.nextTimerId == s.nextTimerId
    ensures forall t :: t in r.pendingCloses <==> t in s.pendingCloses && s.hoverTimeout != Some(t)
    ensures forall t :: t in r.pendingCloses ==> r.pendingCloses[t] == s.pendingCloses[t]
    ensures r.navCloseHandlers == s.navCloseHandlers
  {
    var cleared := match s.hoverTimeout
      case None => s.pendingCloses
      case Some(t) => s.pendingCloses - {t};
    s.(pendingCloses := cleared, active := true, buttonHidden := true)
  }

  /** `closeSidebar` (mouseleave): schedules a close 300 ms later under a fresh
      id and overwrites `hoverTimeout`, leaving any earlier timer pending. */
  function CloseSidebarLater(s: Sidebar): (r: Sidebar)
    requires IdsIssued(s)
    ensures r.active == s.active && r.buttonHidden == s.buttonHidden
    ensures r.hoverTimeout.Some? && r.hoverTimeout.value !in s.pendingCloses
    ensures r.pendingCloses == s.pendingCloses[r.hoverTimeout.value := HoverCloseDelayMs]
    ensures r.nextTimerId > s.nextTimerId && IdsIssued(r)
    ensures r.navCloseHandlers == s.navCloseHandlers
  {
    var id := s.nextTimerId;
    s.(hoverTimeout := Some(id), pendingCloses := s.pendingCloses[id := HoverCloseDelayMs], nextTimerId := id + 1)
  }

  /** A timer fires: a pending close runs once; a cleared or spent id does nothing. */
  function FireTimer(s: Sidebar, id: TimerId): (r: Sidebar)
    ensures id in s.pendingCloses ==> !r.active && !r.buttonHidden && r.pendingCloses == s.pendingCloses - {id}
    ensures id !in s.pendingCloses ==> r == s
    ensures r.hoverTimeout == s.hoverTimeout && r.navCloseHandlers == s.navCloseHandlers
    ensures r.nextTimerId == s.nextTimerId
  {
    if id in s.pendingCloses then Close(s.(pendingCloses := s.pendingCloses - {id})) else s
  }

  /** The document click listener: closes only an open sidebar, and only for a
      target in neither the sidebar nor the toggle. */
  function OutsideClick(s: Sidebar, inSidebar: bool, inToggle: bool): (r: Sidebar)
    ensures (r.active != s.active) <==> s.active && !inSidebar && !inToggle
    ensures s.active && !inSidebar && !inToggle ==> r == Close(s)
    ensures !(s.active && !inSidebar && !inToggle) ==> r == s
  {
    if s.active && !inSidebar && !inToggle then Close(s) else s
  }

  /** A click on any nav link. Its setup handler registers one more close
      handler on every link; the close handlers already on the clicked link
      (one per earlier nav-link click) then run, while the ones just added do
      not run in this dispatch. */
  function NavLinkClick(s: Sidebar): (r: Sidebar)
    ensures r.navCloseHandlers == s.navCloseHandlers + 1
    ensures s.navCloseHandlers == 0 ==> r.active == s.active && r.buttonHidden == s.buttonHidden
    ensures s.navCloseHandlers > 0 ==> !r.active && !r.buttonHidden
    ensures r.pendingCloses == s.pendingCloses && r.hoverTimeout == s.hoverTimeout
    ensures r.nextTimerId == s.nextTimerId
  {
    var registered := s.(navCloseHandlers := s.navCloseHandlers + 1);
    if s.navCloseHandlers > 0 then Close(registered) else registered
  }

  /** One click, dispatched as the browser bubbles it: the nav-link listeners
      on the target, then the toggle's listener (which stops propagation), or
      else the document listener. */
  function OnClick(s: Sidebar, t: ClickTarget): (r: Sidebar)
    ensures t.inToggle && !t.isNavLink ==> r == ToggleSidebar(s)
    ensures !t.inToggle && !t.isNavLink ==> r == OutsideClick(s, t.inSidebar, false)
    ensures t.isNavLink ==> r.navCloseHandlers == s.navCloseHandlers + 1
    ensures t.isNavLink && !t.inToggle ==> r == OutsideClick(NavLinkClick(s), t.inSidebar, false)
    ensures t.isNavLink && t.inToggle ==> r == ToggleSidebar(NavLinkClick(s))
  {
    var s1 := if t.isNavLink then NavLinkClick(s) else s;
    if t.inToggle then ToggleSidebar(s1) else OutsideClick(s1, t.inSidebar, t.inToggle)
  }

  function Step(s: Sidebar, e: Event): (r: Sidebar)
    requires IdsIssued(s)
    ensures IdsIssued(r)
  {
    match e
    case MouseEnter => OpenSidebar(s)
    case MouseLeave => CloseSidebarLater(s)
    case TimerFire(id) => FireTimer(s, id)
    case Click(t) => OnClick(s, t)
  }

  function Run(s: Sidebar, events: seq<Event>): Sidebar
    requires IdsIssued(s)
    decreases |events|
  {
    if |events| == 0 then s else Run(Step(s, events[0]), events[1..])
  }

  /** Number of clicks on nav links among the events. */
  function NavClicks(events: seq<Event>): nat {
    if |events| == 0 then 0
    else (if events[0].Click? && events[0].target.isNavLink then 1 else 0) + NavClicks(events[1..])
  }

  /** Every event moves `active` and `button-hidden` together, so they stay
      equal along any run that starts with them equal. */
  lemma {:induction false} RunKeepsCoupled(s: Sidebar, events: seq<Event>)
    requires IdsIssued(s)
    requires Coupled(s)
    ensures Coupled(Run(s, events))
    decreases |events|
  {
    if |events| > 0 {
      RunKeepsCoupled(Step(s, events[0]), events[1..]);
    }
  }

  /** Each nav-link click registers one more close handler per link, so after
      any run the count is the number of nav-link clicks in it. */
  lemma {:induction false} HandlersCountNavClicks(s: Sidebar, events: seq<Event>)
    requires IdsIssued(s)
    ensures Run(s, events).navCloseHandlers == s.navCloseHandlers + NavClicks(events)
    decreases |events|
  {
    if |events| > 0 {
      HandlersCountNavClicks(Step(s, events[0]), events[1..]);
    }
  }

  /** Open by the toggle, then click a nav link inside the sidebar: the first
      such click only registers handlers and the sidebar stays open; the
      second closes it and shows the toggle again. */
  lemma NavClickClosesFromSecondClickOn()
    ensures var link := Click(ClickTarget(true, false, true));
      var open := Run(Init, [Click(ClickTarget(false, true, false))]);
      && open.active
      && Run(open, [link]).active && Run(open, [link]).buttonHidden
      && !Run(open, [link, link]).active && !Run(open, [link, link]).buttonHidden
  {
    var link := Click(ClickTarget(true, false, true));
    var open := Run(Init, [Click(ClickTarget(false, true, false))]);
    var once := Step(open, link);
    assert Run(open, [link]) == once;
    assert [link, link][1..] == [link];
    assert Run(open, [link, link]) == Run(once, [link]);
  }

  /** Grace period: leave the toggle, reach the sidebar before the timer
      fires, and the fired timer finds nothing to do. */
  lemma GracePeriodKeepsOpen()
    ensures var s := Run(Init, [MouseEnter, MouseLeave, MouseEnter, TimerFire(1)]);
      s.active && s.buttonHidden && s.pendingCloses == map[]
  {
  }

  /** Two `mouseleave`s in a row (the pointer leaving the toggle and the
      sidebar beneath it) leave the first timer pending after the next
      `mouseenter`, because only the last stored id is cleared; that timer
      then closes the sidebar although the pointer is back over it. */
  lemma OverwrittenTimerStillCloses()
    ensures var s := Run(Init, [MouseEnter, MouseLeave, MouseLeave, MouseEnter]);
      s.active && 1 in s.pendingCloses && 2 !in s.pendingCloses &&
      !Run(s, [TimerFire(1)]).active
  {
  }

  /** A mouseenter cancels the last scheduled close whatever came before it. */
  lemma EnterCancelsLastTimer(s: Sidebar)
    requires IdsIssued(s)
    ensures var r := OpenSidebar(CloseSidebarLater(s));
      r.active && r.hoverTimeout.Some? && r.hoverTimeout.value !in r.pendingCloses &&
      r.pendingCloses == s.pendingCloses
  {
  }
}

=== FILE: theme.dfy ===
/** The light/dark theme controller: `setTheme`, startup resolution from the
    stored preference and the system colour-scheme signal, and the toggle
    button. The document, the theme button and `localStorage` are the fields
    of one immutable record; the theme button is taken to exist, its icon may
    not. */
module ThemeController {
  import opened Wrappers

  datatype Theme = Light | Dark {
    /** The value `setTheme` stores for this theme. */
    function Name(): string {
      if Light? then "light" else "dark"
    }
  }

  datatype ThemeDoc = ThemeDoc(
    dataTheme: Option<string>,   // `data-theme` attribute of the root element
    icon: Option<string>,        // text of `.theme-icon`; None when there is no icon element
    ariaLabel: Option<string>,   // `aria-label` of the theme button
    stored: Option<string>       // `localStorage` entry `theme`
  )

  /** The theme the page shows: light exactly under `data-theme="light"`. */
  function Effective(d: ThemeDoc): Theme {
    if d.dataTheme == Some("light") then Light else Dark
  }

  /** The document presents theme `t` consistently: the attribute, the
      stored value, and an icon and label offering the opposite theme. */
  ghost predicate Presents(d: ThemeDoc, t: Theme) {
    && d.dataTheme == (if t == Light then Some("light") else None)
    && d.stored == Some(t.Name())
    && d.ariaLabel == Some(if t == Light then "Switch to dark mode" else "Switch to light mode")
    && (d.icon.Some? ==> d.icon == Some(if t == Light then "dark_mode" else "light_mode"))
  }

  /** `setTheme`: `'light'` selects light; every other string selects dark.
      Either way the choice is written to storage. */
  function SetTheme(d: ThemeDoc, theme: string): (r: ThemeDoc)
    ensures Effective(r) == (if theme == "light" then Light else Dark)
    ensures Presents(r, Effective(r))
    ensures r.icon.Some? <==> d.icon.Some?
  {
    if theme == "light" then
      ThemeDoc(Some("light"), if d.icon.Some? then Some("dark_mode") else None,
               Some("Switch to dark mode"), Some("light"))
    else
      ThemeDoc(None, if d.icon.Some? then Some("light_mode") else None,
               Some("Switch to light mode"), Some("dark"))
  }

  /** A stored value counts only when it is a non-empty string. */
  predicate HasSaved(d: ThemeDoc) {
    d.stored.Some? && d.stored.value != ""
  }

  /** Page load: a non-empty stored value wins; otherwise a system preference
      for light selects (and stores) light; otherwise nothing is written and
      the document keeps the theme its markup gives it. */
  function Startup(d: ThemeDoc, prefersLight: bool): (r: ThemeDoc)
    ensures HasSaved(d) ==> Effective(r) == (if d.stored.value == "light" then Light else Dark) && Presents(r, Effective(r))
    ensures !HasSaved(d) && prefersLight ==> Effective(r) == Light && r.stored == Some("light") && Presents(r, Light)
    ensures !HasSaved(d) && !prefersLight ==> r == d
    ensures r.icon.Some? <==> d.icon.Some?
  {
    if HasSaved(d) then SetTheme(d, d.stored.value)
    else if prefersLight then SetTheme(d, "light")
    else d
  }

  /** The theme button: reads the attribute and switches to the other theme. */
  function Toggle(d: ThemeDoc): (r: ThemeDoc)
    ensures Effective(r) != Effective(d)
    ensures Presents(r, Effective(r))
    ensures r.stored == Some(Effective(r).Name())
    ensures r.icon.Some? <==> d.icon.Some?
  {
    SetTheme(d, if d.dataTheme == Some("light") then "dark" else "light")
  }

  /** On a consistently presented page, toggling twice restores the page,
      storage included. */
  lemma ToggleTwiceRestores(d: ThemeDoc, t: Theme)
    requires Presents(d, t)
    ensures Toggle(Toggle(d)) == d
  {
  }

  /** Whatever the theme shown, the next page load under any system signal
      shows it again once it has been set or toggled. */
  lemma StoredChoiceSurvivesReload(d: ThemeDoc, t: Theme, reloaded: ThemeDoc, prefersLight: bool)
    requires Presents(d, t)
    requires reloaded.stored == d.stored
    ensures Effective(Startup(reloaded, prefersLight)) == t
  {
  }

  /** A stored value other than `'light'` (say `'Light'`) means dark, and the
      startup rewrites it as `'dark'`. */
  lemma UnknownSavedValueMeansDark(d: ThemeDoc, prefersLight: bool)
    requires d.stored == Some("Light")
    ensures Effective(Startup(d, prefersLight)) == Dark
    ensures Startup(d, prefersLight).stored == Some("dark")
  {
  }

  /** First load with nothing stored and a light system preference shows light
      and stores it; toggling stores dark; the next load, still preferring
      light, shows dark. */
  lemma FirstVisitToggleReload(markup: ThemeDoc)
    requires markup.stored == None
    ensures var first := Startup(markup, true);
      && Effective(first) == Light && first.stored == Some("light")
      && Toggle(first).stored == Some("dark")
      && Effective(Startup(markup.(stored := Toggle(first).stored), true)) == Dark
  {
  }
}

=== FILE: wrappers.dfy ===
/** The optional-value datatype shared by the modules of this model. It stands
    for JavaScript's `null`/`undefined` wherever the page script reads a value
    that may be absent (an attribute, a stored preference, a timer handle). */
module Wrappers {

  datatype Option<+T> = None | Some(value: T) {

    /** Returns the value held in Some, or `default` for None */
    function GetOr(fallback: T): (r: T)
      ensures Some? ==> r == value
      ensures None? ==> r == fallback
    {
      if Some? then value else fallback
    }
  }
}
